=== FILE: README.md ===
# msal_extensions: persisted token cache and file lock

This project models the concurrency-safe cache layer of the Python package
`msal_extensions`, and proves properties of that model. The layer has two
parts.

- `CrossPlatLock` (`msal_extensions/filelock.py`) is a cross-process lock.
  It is built on exclusive creation of a lock file. Acquiring it polls the
  creation every 0.25 s until it succeeds or a 5 s deadline passes. The file
  it creates holds `"<pid> <argv0>"`. Releasing it removes the file. A removal
  that fails with ENOENT or EACCES is ignored; any other error is raised.
- `PersistedTokenCache` (`msal_extensions/token_cache.py`) keeps an
  in-memory snapshot of a token cache. The snapshot carries `_last_sync`, the
  time it last agreed with the persisted store. `_reload_if_necessary` loads
  the store only when the store is strictly newer. A missing store counts as
  no change. `modify` takes the lock, then reloads, mutates, saves and
  restamps. `find` takes no lock. It tries the reload at most three times,
  0.5 s apart, and raises the third failure.

The world one process sees is the `Env` class (`environment.dfy`). It has an
integer clock in milliseconds and the lock files on disk. It also has the
store's timestamp and payload, and the OS errors that the next calls will
meet. A script lists what other processes leave behind while this process
sleeps. A trace records every OS and persistence call in order. So each run
is deterministic, and a property such as "the backend is only called while
the lock is held" is a statement about the trace.

Each operation is a pure function over the `Sys` snapshot of the world:
`Polling`, `LockFileCreation`, `Acquisition`, `Release`, `Reload`,
`LockedEdit`, `Modification` and `Lookup`. The class methods (`CrossPlatLock`,
`PersistedTokenCache`) do the work step by step against `Env`. Each method's
postcondition ties its final state and result to its function. The loops
carry that link as their invariant. The lemmas then state what the source
promises about those functions.

The in-memory token cache from the `msal` library is a type parameter `S`.
Its `deserialize`, `serialize`, `find` and `modify` are uninterpreted
functions held in a `MemoryOps` record.

Two facts about the code are easy to misread:

- Acquisition has no stale-lock cleanup. It never removes a lock file; a
  time-out only names the lock file in the `LockError`. `StaleLockReclaimed`
  shows the one recovery there is: another process removes the file while
  this one sleeps.
- `find` never takes the lock, so only `modify` can raise `LockError`.

## Model

| member | source | states |
|---|---|---|
| FileLock.Polling | msal_extensions/filelock.py:33-44 | the `while` loop of `_create_lock_file`: it only appends calls and never moves the clock back, and times out only once the deadline is reached; its calls, clock and errors are stated by `RetriesAreRefusals`, `PollingClock`, `PollingCalls`, `SettledCalls`, `HeldLockNeverOverwritten`, `ExistsNeverRaised` and `StaleLockReclaimed` |
| FileLock.Acquisition | msal_extensions/filelock.py:21-26 | `__enter__`: an acquired lock file names this process, reading back as its pid and `argv0`; the rest is `LockFileCreation`'s contract |
| FileLock.LockContent | msal_extensions/filelock.py:22-25 | the lock file's content `"<pid> <argv0>"` reads back as exactly that pid and command |
| FileLock.Verdict | msal_extensions/filelock.py:34-39 | an attempt ends the loop normally exactly when the file was created; "no atomic creation" and other OS errors end it with an error |
| FileLock.RetriesAreRefusals | msal_extensions/filelock.py:40-44 | each retry round is one refused creation and one 0.25 s sleep on the lock path, and never creates the file |
| FileLock.PollingClock | msal_extensions/filelock.py:31-44 | the clock advances by exactly 0.25 s per refusal; a time-out happens only once the deadline is reached, and less than one interval after it; on success the file holds the caller's content |
| FileLock.PollingCalls | msal_extensions/filelock.py:33-44 | the loop's calls are the refusals, then, unless the deadline passed, one deciding attempt whose answer gives the result |
| FileLock.SettledCalls | msal_extensions/filelock.py:33-44 | only creation attempts on the lock path and check-interval sleeps happen; a failure created no file; a success ends with the first and only successful creation |
| FileLock.TimeoutIsFiveSeconds | msal_extensions/filelock.py:29-33 | on the model's clock, where only sleeps take time, a time-out comes exactly 5 s after the start, after exactly 20 refusals |
| FileLock.LockFileCreation | msal_extensions/filelock.py:28-50 | `_create_lock_file`: only the lock file and the clock are touched; without atomic creation, or for a path with a NUL that `open` rejects with ValueError, LockError is raised at once, with no retry and no sleep; a time-out raises LockError naming the lock path, after 5 s and 20 refusals on the model's clock; success ends with the first creation and leaves the content in the file; a failure never created the file |
| FileLock.HeldLockNeverOverwritten | msal_extensions/filelock.py:33-44 | while another holder keeps the lock file, acquisition never overwrites it and, with atomic creation and a path `open` accepts, ends in the time-out LockError |
| FileLock.ExistsNeverRaised | msal_extensions/filelock.py:40-44 | every EEXIST is a `FileExistsError` and is retried, so it never leaves the loop as an `OSError` |
| FileLock.StaleLockReclaimed | msal_extensions/filelock.py:40-44 | a lock file removed by another process during the sleep is taken one check interval later |
| FileLock.Release | msal_extensions/filelock.py:52-61 | `__exit__` raises exactly when removal fails with an errno other than ENOENT or EACCES, and raises that OSError; with no fault the file is gone; a successful removal takes away the lock file and no other file, a failed one leaves the disk as it was; one removal call, clock and store unchanged |
| FileLock.ReleaseTwice | msal_extensions/filelock.py:56-59 | releasing a lock that is already released does not raise |
| FileLock.CrossPlatLock.constructor | msal_extensions/filelock.py:18-19 | the lock remembers its lock file path |
| FileLock.CrossPlatLock.Enter | msal_extensions/filelock.py:21-26 | `__enter__` runs the creation loop with content `"<pid> <argv0>"` and ends as `Acquisition` says |
| FileLock.CrossPlatLock.CreateLockFile | msal_extensions/filelock.py:28-50 | the `while` loop ends in the state and with the result of `LockFileCreation` |
| FileLock.CrossPlatLock.Exit | msal_extensions/filelock.py:52-61 | `__exit__` ends in the state and with the result of `Release` |
| OsPath.ExpandUser | msal_extensions/token_cache.py:46 | POSIX `os.path.expanduser`: a path without a leading "~" is unchanged; "~" and "~/rest" become the home directory without its trailing slashes plus the rest, or "/" when that is empty; "~name" is unchanged; a non-empty path stays non-empty |
| OsPath.Dirname | msal_extensions/token_cache.py:48 | POSIX `os.path.dirname`: the text up to the last '/' with its trailing slashes removed, kept whole when it is all slashes; empty exactly when the path has no '/' |
| OsPath.DirnameOfJoin | msal_extensions/token_cache.py:48 | the directory of "dir/name" is "dir" |
| TokenCache.LockLocation | msal_extensions/token_cache.py:45-47 | with no (or an empty) override the lock path is the persistence location plus ".lockfile", a different file; any other override is `ExpandUser` of it against the home directory, so a non-"~" override is used as it is |
| TokenCache.Reload | msal_extensions/token_cache.py:53-63 | `load` is called exactly when the store is strictly newer; an older or equal store leaves snapshot and stamp alone; "not found" is a no-op; any other failure propagates as it came (the timestamp's error, else the load's error) and an unreadable payload raises `Undecodable`, leaving the snapshot alone; a newer readable store replaces the snapshot, stamped now; the stamp never goes back |
| TokenCache.FreshCacheLoads | msal_extensions/token_cache.py:50-59 | a new cache (stamp 0) loads any existing store on its first reload and adopts it when readable |
| TokenCache.LockedEdit | msal_extensions/token_cache.py:67-73 | the locked body reloads first and calls only the backend; a failed reload stops it with the reload's outcome; otherwise the edit applies to the reloaded snapshot and exactly one save of the serialized edit follows; the body returns normally exactly when the save does, and otherwise raises the save's error; on success the store holds the serialized post-edit snapshot and the snapshot is stamped with that save's time; a failed save leaves the store, the lock files and the stamp the reload left unchanged |
| TokenCache.Modification | msal_extensions/token_cache.py:65-73 | `modify` only appends calls and never moves the clock back; its outcome is stated by `ModificationResult`, its calls by `ModificationRefused`, `ModificationLocked` and `ModificationSaves` |
| TokenCache.ModificationResult | msal_extensions/token_cache.py:65-73 | which error `modify` raises: the acquisition's when the lock is refused; the release's OSError when removing the lock file fails with an errno other than ENOENT or EACCES, over the body's outcome; otherwise the reload's error, else the save's; it returns normally exactly when none of these raises |
| TokenCache.ModificationCreatesStore | msal_extensions/token_cache.py:57-73 | with no lock file in the way, no faults and no store yet, `modify` returns normally without waiting, creates the store holding the serialized edited snapshot, stamps it now and leaves no lock file |
| TokenCache.ModificationRefused | msal_extensions/token_cache.py:66 | when the lock is not obtained, `modify` raises, leaves snapshot and stamp alone, never calls the backend and removes no file |
| TokenCache.ModificationLocked | msal_extensions/token_cache.py:66-73 | when the lock is obtained, every backend call comes after the creation and before the removal of the lock file, the reload first, and the lock file is removed on every exit path |
| TokenCache.ModificationSaves | msal_extensions/token_cache.py:72-73 | a `modify` that returns normally saved the serialized post-edit snapshot as its last call before the release, and the stamp equals that save's time |
| TokenCache.ModificationStampOrder | msal_extensions/token_cache.py:59-73 | on the model's clock, `modify` never moves `_last_sync` backwards or past the clock |
| TokenCache.ModifiedCacheIsCurrent | msal_extensions/token_cache.py:57-73 | right after a successful `modify`, the next reload of the same cache only asks for the timestamp and changes nothing |
| TokenCache.WriteVisibleToReaders | msal_extensions/token_cache.py:53-73 | after a successful `modify`, any cache with an older stamp loads exactly the written snapshot on its next reload, provided `deserialize` reads back what `serialize` wrote |
| TokenCache.Lookup | msal_extensions/token_cache.py:78-90 | the `for attempt` loop of `find`: it only appends calls and never moves the clock back; its calls, attempts, pauses and results are stated by the `Lookup…` lemmas below |
| TokenCache.LookupReadsOnly | msal_extensions/token_cache.py:75-89 | `find` only asks for the timestamp, loads and sleeps 0.5 s: it never creates or removes a lock file and never saves |
| TokenCache.LookupClock | msal_extensions/token_cache.py:81-85 | `find` moves the clock only by its 0.5 s pauses |
| TokenCache.LookupAttempts | msal_extensions/token_cache.py:77-87 | `find` reloads at least once and at most three times; raising takes all three reloads |
| TokenCache.LookupPauses | msal_extensions/token_cache.py:81-85 | `find` makes one pause fewer than reloads, so two pauses before raising |
| TokenCache.LookupRounds | msal_extensions/token_cache.py:78-87 | `find`'s calls are reloads (a timestamp query, then a load when stale) separated by single 0.5 s pauses |
| TokenCache.LookupPausesPlaced | msal_extensions/token_cache.py:78-87 | `find` starts with the timestamp query, and every pause comes right after a reload's last call and right before the next timestamp query: it never pauses before the first reload or runs two reloads back to back |
| TokenCache.LookupResult | msal_extensions/token_cache.py:80-90 | a normal return of `find` is the in-memory lookup on the reloaded snapshot, so the `return []` after the loop is never reached; an exception is the error the last attempt's reload raised, never "not found" |
| TokenCache.LookupStopsAtFirstSuccess | msal_extensions/token_cache.py:79-89 | the first reload that does not raise ends `find`: no further call, and the answer is the lookup on the snapshot that reload left |
| TokenCache.LookupStampOrder | msal_extensions/token_cache.py:78-89 | on the model's clock, `find` never moves `_last_sync` backwards or past the clock |
| TokenCache.FindSeesWrite | msal_extensions/token_cache.py:75-89 | after another cache's successful `modify`, a `find` on an older snapshot answers from the written snapshot on its first attempt, with one timestamp query and one load |
| TokenCache.PersistedTokenCache.constructor | msal_extensions/token_cache.py:43-51 | the lock location is `LockLocation` of the override; the directory of the lock path is created; the snapshot is empty with stamp 0; `is_encrypted` is copied from the persistence |
| TokenCache.PersistedTokenCache.ReloadIfNecessary | msal_extensions/token_cache.py:53-63 | `_reload_if_necessary` ends with the world, snapshot, stamp and result of `Reload`, and keeps the stamp no later than the model's clock |
| TokenCache.PersistedTokenCache.Modify | msal_extensions/token_cache.py:65-73 | `modify` ends with the world, snapshot, stamp and result of `Modification`; an error from the lock release replaces the body's outcome |
| TokenCache.PersistedTokenCache.Find | msal_extensions/token_cache.py:75-90 | the `for attempt` loop ends with the world, snapshot, stamp and result of `Lookup` from the first attempt |

## Left out

- Real filesystem, threads and interleaving between processes: one process's sequential view is modelled. Other processes act only through the scripted worlds installed at each sleep. Mutual exclusion across processes is the OS's atomic exclusive creation, not this code's.
- Floating-point time: `time.monotonic()`, `time.time()` and the store's mtime share one integer millisecond clock. Sleeps are exact, and no call other than `sleep` takes time. `time.time()` is taken to be monotonic; in the program `_last_sync` can move backwards when the wall clock is set back, so the stamp-order results (`ModificationStampOrder`, `LookupStampOrder`, the `Valid()` kept by the cache's methods) hold on the model's clock only. The program makes at most 20 attempts and raises at 5 s or later; the "exactly 20 refusals" and "exactly 5 s" of `TimeoutIsFiveSeconds` and `LockFileCreation` hold on the model's clock only.
- Encoding: the lock file's content is kept as a string. Its UTF-8 encoding is not modelled.
- A write error after the lock file was created (the `lock_file.write` call) is not modelled. Creating the file and writing the content are one step.
- `persistence.py` (the backends, `get_location`, `is_encrypted`, `PersistenceNotFound`) is not part of this model. A backend is a timestamp answer and a payload answer, each of which may be an error.
- `_mkdir_p` is not part of this model beyond being recorded in the trace. It is taken to succeed.
- `cache_lock.py` (the portalocker-based lock that `token_cache.py` prefers when it is installed) is not part of this model. The lock modelled is the `filelock.py` fallback.
- `msal.SerializableTokenCache` is not part of this model. Its `deserialize`, `serialize`, `find` and `modify` are uninterpreted functions. A payload `deserialize` rejects stands for any exception it raises. `modify`, `serialize` and `find` are taken never to raise. So two exception paths of the program are not modelled: an exception from `super().find(...)` in the `else:` clause of `find`'s loop, which is not retried and propagates at once; and an exception from `self.serialize()` inside `modify`, which skips the save and the restamp and is raised once the lock is released.
- `msal_extensions/__init__.py` only wires the package together and has no behaviour here.
- Logging calls and the exact text of the `LockError` messages are left out. A time-out error carries the lock path and the 5 s timeout that the message names.
- OsPath.ExpandUser: the "~name" form needs the account database and is returned unchanged, as for an unknown user. Only the POSIX rules are modelled (`ntpath` on Windows differs), and so for `OsPath.Dirname`. The home directory is a parameter, not read from `$HOME` or the account database. The `_mkdir_p` of the expanded lock path's directory reaches only the trace.
- The lock cannot change hands while `modify` holds it in this model: nothing else acts between acquisition and release, because other processes act only during sleeps. `__exit__` removes whatever file has the lock path without checking that it still holds this process's `"<pid> <argv0>"`, and `Release` does the same, but the race in which another process took over the file cannot arise here.
- TokenCache.WriteVisibleToReaders: assumes, rather than proves, that the in-memory cache reads back what it serializes. That is a property of `msal`, which is not part of this model.
- TokenCache.FindSeesWrite: rests on the same read-back assumption.

=== FILE: common.dfy ===
/** Values shared by the lock and the persisted token cache: bytes, paths,
    the errors the Python code raises, and a result type that stands for
    "returned normally" or "raised". */
module Common {

  newtype byte = x: int | 0 <= x < 256

  type Bytes = seq<byte>

  /** A filesystem path, as the Python `str` the code passes around. */
  type Path = string

  datatype Option<T> = None | Some(value: T)

  /** errno values (Linux numbering) that the lock tells apart. */
  const ENOENT := 2
  const EACCES := 13
  const EEXIST := 17

  /** Why a `LockError` was raised. */
  datatype LockFailure =
    | NoAtomicCreate                         // `open(..., 'x')` raised ValueError
    | TimedOut(path: Path, seconds: nat)     // the deadline passed; names the stale lock file

  /** The exceptions that can leave the core. */
  datatype Error =
    | PersistenceNotFound                    // the persisted store does not exist
    | PersistenceFailure(code: int)          // any other failure of the backend (e.g. undecryptable)
    | Undecodable                            // the in-memory cache rejected the loaded payload
    | LockError(failure: LockFailure)
    | OSError(errno: int)

  /** `Ok` is a normal return, `Fail` an exception propagating to the caller. */
  datatype Result<T> = Ok(value: T) | Fail(error: Error)
}

=== FILE: environment.dfy ===
/** The outside world as one process sees it: a clock, the lock files on
    disk, the persistence backend, and what other processes do meanwhile.

    Every answer the world gives is fixed in advance, so each run of the
    core is deterministic.  Other processes act only while this one sleeps:
    `script` lists, sleep by sleep, the world that this process finds when it
    wakes up (`None` when nothing changed).  Every call this process makes is
    appended to `trace`, as an instrumented backend would record it. */
module Environment {
  import opened Common

  /** The persisted store: `time_last_modified()` and `load()` answers. */
  datatype Backend = Backend(stamp: Result<int>, data: Result<Bytes>)

  /** What is on disk, and the OS faults the next calls will meet. */
  datatype World = World(
    files: map<Path, string>,        // lock files and their contents
    backend: Backend,
    createFault: Option<int>,        // errno of a failing exclusive creation
    removeFault: Option<int>,        // errno of a failing removal
    saveFault: Option<Error>)        // exception raised by `save`

  /** The process and platform: `os.getpid()`, `sys.argv[0]`, `$HOME`, and
      whether `open(..., 'x')` is available at all. */
  datatype Platform = Platform(pid: nat, argv0: string, home: Path, atomicCreate: bool)

  /** Outcome of `open(path, 'xb')` followed by writing the content. */
  datatype CreateAnswer = Created | Exists | NoAtomic | CreateErrno(errno: int)

  datatype Event =
    | MadeDirs(dir: Path)
    | CreateAttempt(path: Path, answer: CreateAnswer)
    | RemoveAttempt(path: Path, failure: Option<int>)
    | Slept(ms: nat)
    | AskedMtime
    | Loaded
    | Saved(data: Bytes)

  /** The whole state of the world, clock in milliseconds. */
  datatype Sys = Sys(now: nat, world: World, script: seq<Option<World>>, trace: seq<Event>)

  /** Calls that touch the persistence backend. */
  predicate BackendEvent(e: Event) {
    e.AskedMtime? || e.Loaded? || e.Saved?
  }

  /** `time.sleep(ms)`: the clock advances and other processes may act. */
  function SleepStep(s: Sys, ms: nat): (t: Sys)
    ensures t.now == s.now + ms && t.trace == s.trace + [Slept(ms)]
  {
    var world := if s.script != [] && s.script[0].Some? then s.script[0].value else s.world;
    Sys(s.now + ms, world, if s.script == [] then [] else s.script[1..], s.trace + [Slept(ms)])
  }

  /** `open` rejects a path with an embedded NUL with `ValueError`, before
      touching the disk. */
  predicate NulInPath(path: Path) {
    '\0' in path
  }

  /** Exclusive creation: succeeds only where no file of that name exists,
      and then writes `content`; every other answer leaves the disk alone.
      `ValueError` (no atomic creation, or a NUL in the path) comes first;
      any EEXIST is a `FileExistsError`, whatever made it. */
  function CreateStep(s: Sys, atomic: bool, path: Path, content: string): (r: (Sys, CreateAnswer))
    ensures r.1 == NoAtomic <==> !atomic || NulInPath(path)
    ensures r.1 == Exists <==>
              atomic && !NulInPath(path) && (path in s.world.files || s.world.createFault == Some(EEXIST))
    ensures r.1 == Created <==>
              atomic && !NulInPath(path) && path !in s.world.files && s.world.createFault.None?
    ensures r.1.CreateErrno? ==> r.1.errno != EEXIST
    ensures r.1 == Created ==> r.0.world == s.world.(files := s.world.files[path := content])
    ensures r.1 != Created ==> r.0.world == s.world
    ensures r.0.now == s.now && r.0.script == s.script
    ensures r.0.trace == s.trace + [CreateAttempt(path, r.1)]
  {
    var answer :=
      if !atomic || NulInPath(path) then NoAtomic
      else if path in s.world.files || s.world.createFault == Some(EEXIST) then Exists
      else if s.world.createFault.Some? then CreateErrno(s.world.createFault.value)
      else Created;
    var world := if answer == Created then s.world.(files := s.world.files[path := content]) else s.world;
    (s.(world := world, trace := s.trace + [CreateAttempt(path, answer)]), answer)
  }

  /** `os.remove(path)`: `None` on success, otherwise the errno raised. */
  function RemoveStep(s: Sys, path: Path): (r: (Sys, Option<int>))
    ensures r.1.None? <==> s.world.removeFault.None? && path in s.world.files
    ensures r.1.None? ==> r.0.world == s.world.(files := s.world.files - {path})
    ensures r.1.Some? ==> r.0.world == s.world
    ensures s.world.removeFault.None? && path !in s.world.files ==> r.1 == Some(ENOENT)
    ensures r.0.now == s.now && r.0.script == s.script
    ensures r.0.trace == s.trace + [RemoveAttempt(path, r.1)]
  {
    var failure :=
      if s.world.removeFault.Some? then s.world.removeFault
      else if path !in s.world.files then Some(ENOENT)
      else None;
    var world := if failure.None? then s.world.(files := s.world.files - {path}) else s.world;
    (s.(world := world, trace := s.trace + [RemoveAttempt(path, failure)]), failure)
  }

  /** `persistence.time_last_modified()`. */
  function MtimeStep(s: Sys): (r: (Sys, Result<int>))
  {
    (s.(trace := s.trace + [AskedMtime]), s.world.backend.stamp)
  }

  /** `persistence.load()`. */
  function LoadStep(s: Sys): (r: (Sys, Result<Bytes>))
  {
    (s.(trace := s.trace + [Loaded]), s.world.backend.data)
  }

  /** `persistence.save(data)`: on success the store holds `data`, stamped now. */
  function SaveStep(s: Sys, data: Bytes): (r: (Sys, Result<()>))
  {
    var trace := s.trace + [Saved(data)];
    if s.world.saveFault.Some? then (s.(trace := trace), Fail(s.world.saveFault.value))
    else (s.(world := s.world.(backend := Backend(Ok(s.now), Ok(data))), trace := trace), Ok(()))
  }

  /** `_mkdir_p(dir)`: recorded; the directory itself is not modelled. */
  function MakeDirsStep(s: Sys, dir: Path): (t: Sys)
  {
    s.(trace := s.trace + [MadeDirs(dir)])
  }

  /** The world a process lives in; its methods are the OS and persistence
      calls the core makes, each one step of the functions above. */
  class Env {
    const platform: Platform
    const location: Path          // persistence.get_location()
    const encrypted: bool         // persistence.is_encrypted
    var now: nat
    var world: World
    var script: seq<Option<World>>
    var trace: seq<Event>

    function Snapshot(): Sys
      reads this
    {
      Sys(now, world, script, trace)
    }

    constructor (platform: Platform, location: Path, encrypted: bool, start: nat, world: World, script: seq<Option<World>>)
      ensures this.platform == platform && this.location == location && this.encrypted == encrypted
      ensures Snapshot() == Sys(start, world, script, [])
    {
      this.platform, this.location, this.encrypted := platform, location, encrypted;
      this.now, this.world, this.script, this.trace := start, world, script, [];
    }

    method Sleep(ms: nat)
      modifies this
      ensures Snapshot() == SleepStep(old(Snapshot()), ms)
    {
      if script != [] {
        if script[0].Some? {
          world := script[0].value;
        }
        script := script[1..];
      }
      now := now + ms;
      trace := trace + [Slept(ms)];
    }

    method CreateExclusive(path: Path, content: string) returns (answer: CreateAnswer)
      modifies this
      ensures (Snapshot(), answer) == CreateStep(old(Snapshot()), platform.atomicCreate, path, content)
    {
      if !platform.atomicCreate || NulInPath(path) {
        answer := NoAtomic;
      } else if path in world.files || world.createFault == Some(EEXIST) {
        answer := Exists;
      } else if world.createFault.Some? {
        answer := CreateErrno(world.createFault.value);
      } else {
        answer := Created;
        world := world.(files := world.files[path := content]);
      }
      trace := trace + [CreateAttempt(path, answer)];
    }

    method Remove(path: Path) returns (failure: Option<int>)
      modifies this
      ensures (Snapshot(), failure) == RemoveStep(old(Snapshot()), path)
    {
      if world.removeFault.Some? {
        failure := world.removeFault;
      } else if path !in world.files {
        failure := Some(ENOENT);
      } else {
        failure := None;
        world := world.(files := world.files - {path});
      }
      trace := trace + [RemoveAttempt(path, failure)];
    }

    method TimeLastModified() returns (stamp: Result<int>)
      modifies this
      ensures (Snapshot(), stamp) == MtimeStep(old(Snapshot()))
    {
      stamp := world.backend.stamp;
      trace := trace + [AskedMtime];
    }

    method Load() returns (data: Result<Bytes>)
      modifies this
      ensures (Snapshot(), data) == LoadStep(old(Snapshot()))
    {
      data := world.backend.data;
      trace := trace + [Loaded];
    }

    method Save(data: Bytes) returns (r: Result<()>)
      modifies this
      ensures (Snapshot(), r) == SaveStep(old(Snapshot()), data)
    {
      if world.saveFault.Some? {
        r := Fail(world.saveFault.value);
      } else {
        world := world.(backend := Backend(Ok(now), Ok(data)));
        r := Ok(());
      }
      trace := trace + [Saved(data)];
    }

    method MakeDirs(dir: Path)
      modifies this
      ensures Snapshot() == MakeDirsStep(old(Snapshot()), dir)
    {
      trace := trace + [MadeDirs(dir)];
    }
  }
}

=== FILE: filelock.dfy ===
/** A cross-process lock built on exclusive creation of a lock file
    (msal_extensions/filelock.py).  Acquiring polls the exclusive creation
    until it succeeds or a five-second deadline passes; releasing removes the
    file and tolerates a file that another process already cleared or holds. */
module FileLock {
  import opened Common
  import opened Environment

  const TimeoutSeconds := 5
  const TimeoutMs := 5000
  const CheckIntervalMs := 250

  // ---------------------------------------------------------------------
  // The lock file's content: "<pid> <argv0>", for diagnostics only.

  predicate AllDigits(s: string) {
    forall i :: 0 <= i < |s| ==> '0' <= s[i] <= '9'
  }

  function Digit(d: nat): (c: char)
    requires d < 10
    ensures '0' <= c <= '9' && c as int - '0' as int == d
  {
    ('0' as int + d) as char
  }

  /** `str(n)` for a non-negative integer. */
  function Decimal(n: nat): (s: string)
    ensures |s| >= 1 && AllDigits(s)
    decreases n
  {
    if n < 10 then [Digit(n)] else Decimal(n / 10) + [Digit(n % 10)]
  }

  /** The number a string of decimal digits denotes. */
  function DigitsValue(s: string): nat
    requires AllDigits(s)
    decreases |s|
  {
    if s == [] then 0 else DigitsValue(s[..|s| - 1]) * 10 + (s[|s| - 1] as int - '0' as int)
  }

  lemma {:induction false} DecimalRoundTrip(n: nat)
    ensures DigitsValue(Decimal(n)) == n
    decreases n
  {
    if n >= 10 {
      DecimalRoundTrip(n / 10);
      var s := Decimal(n);
      assert s[..|s| - 1] == Decimal(n / 10);
    }
  }

  /** Index of the first space, or the length when there is none. */
  function SpaceIndex(s: string): (i: nat)
    ensures i <= |s|
  {
    if s == [] || s[0] == ' ' then 0 else 1 + SpaceIndex(s[1..])
  }

  lemma {:induction false} SpaceAfterDigits(d: string, rest: string)
    requires AllDigits(d)
    ensures SpaceIndex(d + " " + rest) == |d|
  {
    if d != [] {
      assert (d + " " + rest)[1..] == d[1..] + " " + rest;
      SpaceAfterDigits(d[1..], rest);
    }
  }

  /** Reads a lock file's content back as (pid, command). */
  function Holder(content: string): (holder: (nat, string))
  {
    var i := SpaceIndex(content);
    var digits := content[..i];
    (if AllDigits(digits) then DigitsValue(digits) else 0,
     if i < |content| then content[i + 1..] else "")
  }

  /** What `__enter__` writes into the lock file. */
  function LockContent(pid: nat, argv0: string): (content: string)
    ensures Holder(content) == (pid, argv0)
  {
    var d := Decimal(pid);
    SpaceAfterDigits(d, argv0);
    DecimalRoundTrip(pid);
    assert (d + " " + argv0)[..|d|] == d;
    assert (d + " " + argv0)[|d| + 1..] == argv0;
    d + " " + argv0
  }

  // ---------------------------------------------------------------------
  // Acquisition: the polling loop of `_create_lock_file`.

  function TimeoutError(path: Path): Result<()> {
    Fail(LockError(TimedOut(path, TimeoutSeconds)))
  }

  /** How the loop ends on an answer other than "file exists". */
  function Verdict(answer: CreateAnswer): (r: Result<()>)
    requires answer != Exists
    ensures r.Ok? <==> answer == Created
  {
    match answer
    case Created => Ok(())
    case NoAtomic => Fail(LockError(NoAtomicCreate))
    case CreateErrno(e) => Fail(OSError(e))
  }

  /** The loop `while timeout_end > current_time()`, from state `s`. */
  function Polling(s: Sys, atomic: bool, path: Path, content: string, deadline: int): (r: (Sys, Result<()>))
    // calls are only appended, the clock never goes back, and the time-out
    // comes only once the deadline is reached
    ensures s.trace <= r.0.trace && s.now <= r.0.now
    ensures r.1 == TimeoutError(path) ==> deadline <= r.0.now
    decreases deadline - s.now
  {
    if deadline <= s.now then (s, TimeoutError(path))
    else
      var (s1, answer) := CreateStep(s, atomic, path, content);
      if answer == Exists then Polling(SleepStep(s1, CheckIntervalMs), atomic, path, content, deadline)
      else (s1, Verdict(answer))
  }

  /** `k` rounds of "the file exists, sleep one check interval". */
  function Retries(path: Path, k: nat): seq<Event>
  {
    if k == 0 then [] else [CreateAttempt(path, Exists), Slept(CheckIntervalMs)] + Retries(path, k - 1)
  }

  /** The only calls the polling loop makes. */
  predicate PollEvent(e: Event, path: Path) {
    (e.CreateAttempt? && e.path == path) || e == Slept(CheckIntervalMs)
  }

  /** The calls of a loop that slept `k` times and ended with `res`: the
      retries, then (unless the deadline passed) one deciding attempt. */
  predicate Settled(d: seq<Event>, path: Path, k: nat, res: Result<()>)
  {
    if res == TimeoutError(path) then d == Retries(path, k)
    else
      |d| == 2 * k + 1 && d[..2 * k] == Retries(path, k)
      && d[2 * k].CreateAttempt? && d[2 * k].path == path && d[2 * k].answer != Exists
      && res == Verdict(d[2 * k].answer)
  }

  lemma {:induction false} RetriesAreRefusals(path: Path, k: nat)
    ensures |Retries(path, k)| == 2 * k
    ensures forall i :: 0 <= i < 2 * k ==> PollEvent(Retries(path, k)[i], path)
    ensures forall i :: 0 <= i < 2 * k ==> Retries(path, k)[i] != CreateAttempt(path, Created)
  {
    if k > 0 {
      RetriesAreRefusals(path, k - 1);
    }
  }

  /** How many times the loop finds the lock file present and sleeps. */
  function Refusals(s: Sys, atomic: bool, path: Path, content: string, deadline: int): nat
    decreases deadline - s.now
  {
    if deadline <= s.now then 0
    else
      var (s1, answer) := CreateStep(s, atomic, path, content);
      if answer == Exists then 1 + Refusals(SleepStep(s1, CheckIntervalMs), atomic, path, content, deadline)
      else 0
  }

  lemma {:induction false} SettledAfterRetry(d: seq<Event>, path: Path, k: nat, res: Result<()>)
    requires Settled(d, path, k, res)
    ensures Settled([CreateAttempt(path, Exists), Slept(CheckIntervalMs)] + d, path, k + 1, res)
  {
    var head := [CreateAttempt(path, Exists), Slept(CheckIntervalMs)];
    assert Retries(path, k + 1) == head + Retries(path, k);
    if res != TimeoutError(path) {
      var e := head + d;
      assert e[..2 * (k + 1)] == head + d[..2 * k];
      assert e[2 * (k + 1)] == d[2 * k];
    }
  }

  /** One turn of the loop before the deadline: a refused creation sleeps
      and loops, counting one refusal; any other answer ends it. */
  lemma PollingStep(s: Sys, atomic: bool, path: Path, content: string, deadline: int)
    requires deadline > s.now
    ensures var (s1, answer) := CreateStep(s, atomic, path, content);
      (answer == Exists ==>
         Polling(s, atomic, path, content, deadline) == Polling(SleepStep(s1, CheckIntervalMs), atomic, path, content, deadline) &&
         Refusals(s, atomic, path, content, deadline) == 1 + Refusals(SleepStep(s1, CheckIntervalMs), atomic, path, content, deadline)) &&
      (answer != Exists ==>
         Polling(s, atomic, path, content, deadline) == (s1, Verdict(answer)) &&
         Refusals(s, atomic, path, content, deadline) == 0)
  {
  }

  /** A refusal and a sleep, then a loop that settled, make a settled loop. */
  lemma {:induction false} RetrySettled(t0: seq<Event>, t2: seq<Event>, path: Path, k: nat, res: Result<()>)
    requires t0 + [CreateAttempt(path, Exists), Slept(CheckIntervalMs)] <= t2
    requires Settled(t2[|t0| + 2..], path, k, res)
    ensures t0 <= t2 && Settled(t2[|t0|..], path, k + 1, res)
  {
    assert t2[|t0|..] == [CreateAttempt(path, Exists), Slept(CheckIntervalMs)] + t2[|t0| + 2..];
    SettledAfterRetry(t2[|t0| + 2..], path, k, res);
  }

  /** One deciding attempt settles the loop with no refusal. */
  lemma {:induction false} DecidedSettled(t0: seq<Event>, answer: CreateAnswer, path: Path)
    requires answer != Exists
    ensures Settled((t0 + [CreateAttempt(path, answer)])[|t0|..], path, 0, Verdict(answer))
  {
    assert (t0 + [CreateAttempt(path, answer)])[|t0|..] == [CreateAttempt(path, answer)];
    assert Verdict(answer) != TimeoutError(path);
  }

  /** The clock and the disk at the end of the loop. */
  lemma {:induction false} PollingClock(s: Sys, atomic: bool, path: Path, content: string, deadline: int)
    ensures var (t, res) := Polling(s, atomic, path, content, deadline);
      t.now == s.now + CheckIntervalMs * Refusals(s, atomic, path, content, deadline)
      && (res == TimeoutError(path) ==> deadline <= t.now && (s.now < deadline ==> t.now < deadline + CheckIntervalMs))
      && (res.Ok? ==> path in t.world.files && t.world.files[path] == content)
    decreases deadline - s.now
  {
    if deadline > s.now {
      var (s1, answer) := CreateStep(s, atomic, path, content);
      if answer == Exists {
        PollingClock(SleepStep(s1, CheckIntervalMs), atomic, path, content, deadline);
      }
    }
  }

  /** The calls the loop makes, in order. */
  lemma {:induction false} PollingCalls(s: Sys, atomic: bool, path: Path, content: string, deadline: int)
    ensures var (t, res) := Polling(s, atomic, path, content, deadline);
      s.trace <= t.trace && Settled(t.trace[|s.trace|..], path, Refusals(s, atomic, path, content, deadline), res)
    decreases deadline - s.now
  {
    if deadline > s.now {
      var (s1, answer) := CreateStep(s, atomic, path, content);
      if answer == Exists {
        PollingCalls(SleepStep(s1, CheckIntervalMs), atomic, path, content, deadline);
        RetriedCalls(s, atomic, path, content, deadline);
      } else {
        DecidedCalls(s, atomic, path, content, deadline);
      }
    } else {
      assert s.trace[|s.trace|..] == Retries(path, 0);
    }
  }

  /** A refused attempt adds one retry round in front of the rest of the loop. */
  lemma {:induction false} RetriedCalls(s: Sys, atomic: bool, path: Path, content: string, deadline: int)
    requires deadline > s.now && CreateStep(s, atomic, path, content).1 == Exists
    requires var s2 := SleepStep(CreateStep(s, atomic, path, content).0, CheckIntervalMs);
      var (t, res) := Polling(s2, atomic, path, content, deadline);
      s2.trace <= t.trace && Settled(t.trace[|s2.trace|..], path, Refusals(s2, atomic, path, content, deadline), res)
    ensures var (t, res) := Polling(s, atomic, path, content, deadline);
      s.trace <= t.trace && Settled(t.trace[|s.trace|..], path, Refusals(s, atomic, path, content, deadline), res)
  {
    var s2 := SleepStep(CreateStep(s, atomic, path, content).0, CheckIntervalMs);
    PollingStep(s, atomic, path, content, deadline);
    var (t, res) := Polling(s2, atomic, path, content, deadline);
    var k := Refusals(s2, atomic, path, content, deadline);
    RetrySettled(s.trace, t.trace, path, k, res);
    assert Polling(s, atomic, path, content, deadline) == (t, res);
    assert Refusals(s, atomic, path, content, deadline) == k + 1;
  }

  /** An attempt answered with anything but "exists" settles the loop. */
  lemma {:induction false} DecidedCalls(s: Sys, atomic: bool, path: Path, content: string, deadline: int)
    requires deadline > s.now && CreateStep(s, atomic, path, content).1 != Exists
    ensures var (t, res) := Polling(s, atomic, path, content, deadline);
      s.trace <= t.trace && Settled(t.trace[|s.trace|..], path, Refusals(s, atomic, path, content, deadline), res)
  {
    var (s1, answer) := CreateStep(s, atomic, path, content);
    PollingStep(s, atomic, path, content, deadline);
    DecidedSettled(s.trace, answer, path);
    assert Polling(s, atomic, path, content, deadline) == (s1, Verdict(answer));
    assert Refusals(s, atomic, path, content, deadline) == 0;
  }

  lemma {:induction false} SettledCalls(d: seq<Event>, path: Path, k: nat, res: Result<()>)
    requires Settled(d, path, k, res)
    ensures forall i :: 0 <= i < |d| ==> PollEvent(d[i], path)
    ensures res.Fail? ==> forall i :: 0 <= i < |d| ==> d[i] != CreateAttempt(path, Created)
    ensures res.Ok? ==> |d| > 0 && d[|d| - 1] == CreateAttempt(path, Created)
    ensures res.Ok? ==> forall i :: 0 <= i < |d| - 1 ==> d[i] != CreateAttempt(path, Created)
  {
    RetriesAreRefusals(path, k);
    if res != TimeoutError(path) {
      assert forall i :: 0 <= i < 2 * k ==> d[i] == Retries(path, k)[i];
    }
  }

  lemma {:induction false} TimeoutIsFiveSeconds(s: Sys, atomic: bool, path: Path, content: string)
    ensures var (t, res) := Polling(s, atomic, path, content, s.now + TimeoutMs);
      res == TimeoutError(path) ==>
        t.now == s.now + TimeoutMs && t.trace == s.trace + Retries(path, TimeoutMs / CheckIntervalMs)
  {
    var deadline := s.now + TimeoutMs;
    PollingClock(s, atomic, path, content, deadline);
    PollingCalls(s, atomic, path, content, deadline);
    var (t, res) := Polling(s, atomic, path, content, deadline);
    if res == TimeoutError(path) {
      var k := Refusals(s, atomic, path, content, deadline);
      TwentyRefusals(k);
      TimedOutCalls(s.trace, t.trace, path, k);
    }
  }

  /** Refusals of 250 ms that reach a 5 s deadline but stop short of one
      more interval past it are exactly twenty. */
  lemma {:induction false} TwentyRefusals(k: nat)
    requires TimeoutMs <= CheckIntervalMs * k < TimeoutMs + CheckIntervalMs
    ensures k == TimeoutMs / CheckIntervalMs
  {
  }

  /** A loop that timed out made only its retry rounds. */
  lemma {:induction false} TimedOutCalls(t0: seq<Event>, t2: seq<Event>, path: Path, k: nat)
    requires t0 <= t2 && Settled(t2[|t0|..], path, k, TimeoutError(path))
    ensures t2 == t0 + Retries(path, k)
  {
    assert t2 == t2[..|t0|] + t2[|t0|..];
  }

  /** `_create_lock_file(content)`: the polling loop against a deadline five
      seconds from now. */
  function LockFileCreation(s: Sys, atomic: bool, path: Path, content: string): (r: (Sys, Result<()>))
    // only the lock file and the clock are touched
    ensures s.now <= r.0.now && s.trace <= r.0.trace
    ensures forall i :: |s.trace| <= i < |r.0.trace| ==> PollEvent(r.0.trace[i], path)
    // no atomic creation, or a path `open` rejects: LockError at once, no retry, no sleep
    ensures !atomic || NulInPath(path) ==> r == (s.(trace := s.trace + [CreateAttempt(path, NoAtomic)]), Fail(LockError(NoAtomicCreate)))
    // the deadline passed: exactly five seconds of refusals, twenty attempts
    ensures r.1 == TimeoutError(path) ==>
      r.0.now == s.now + TimeoutMs && r.0.trace == s.trace + Retries(path, TimeoutMs / CheckIntervalMs)
    // success: the first successful creation ends the loop, the file holds `content`
    ensures r.1.Ok? ==>
      |r.0.trace| > |s.trace| && r.0.trace[|r.0.trace| - 1] == CreateAttempt(path, Created)
      && path in r.0.world.files && r.0.world.files[path] == content
      && forall i :: |s.trace| <= i < |r.0.trace| - 1 ==> r.0.trace[i] != CreateAttempt(path, Created)
    // failure: this caller created no lock file
    ensures r.1.Fail? ==> forall i :: |s.trace| <= i < |r.0.trace| ==> r.0.trace[i] != CreateAttempt(path, Created)
  {
    var deadline := s.now + TimeoutMs;
    var r := Polling(s, atomic, path, content, deadline);
    PollingClock(s, atomic, path, content, deadline);
    PollingCalls(s, atomic, path, content, deadline);
    var d := r.0.trace[|s.trace|..];
    SettledCalls(d, path, Refusals(s, atomic, path, content, deadline), r.1);
    assert forall i :: |s.trace| <= i < |r.0.trace| ==> r.0.trace[i] == d[i - |s.trace|];
    TimeoutIsFiveSeconds(s, atomic, path, content);
    r
  }

  /** `__enter__`: create the lock file holding "<pid> <argv0>". */
  function Acquisition(s: Sys, platform: Platform, path: Path): (r: (Sys, Result<()>))
    // an acquired lock file names this process: its pid and its command
    ensures r.1.Ok? ==> path in r.0.world.files && Holder(r.0.world.files[path]) == (platform.pid, platform.argv0)
  {
    LockFileCreation(s, platform.atomicCreate, path, LockContent(platform.pid, platform.argv0))
  }

  // ---------------------------------------------------------------------
  // Release: `__exit__`.

  /** Removal failures that `__exit__` swallows. */
  predicate Benign(errno: int) {
    errno == ENOENT || errno == EACCES
  }

  function Release(s: Sys, path: Path): (r: (Sys, Result<()>))
    ensures r.1.Fail? <==> s.world.removeFault.Some? && !Benign(s.world.removeFault.value)
    ensures r.1.Fail? ==> r.1.error == OSError(s.world.removeFault.value)
    ensures s.world.removeFault.None? ==> r.1.Ok? && path !in r.0.world.files
    // only the lock file goes, and only when the removal succeeds
    ensures s.world.removeFault.None? && path in s.world.files ==>
              r.0.world == s.world.(files := s.world.files - {path})
    ensures !(s.world.removeFault.None? && path in s.world.files) ==> r.0.world == s.world
    ensures |r.0.trace| == |s.trace| + 1 && r.0.trace[..|s.trace|] == s.trace
    ensures r.0.trace[|s.trace|].RemoveAttempt? && r.0.trace[|s.trace|].path == path
    ensures r.0.now == s.now && r.0.script == s.script && r.0.world.backend == s.world.backend
  {
    var (t, failure) := RemoveStep(s, path);
    (t, if failure.Some? && !Benign(failure.value) then Fail(OSError(failure.value)) else Ok(()))
  }

  /** Releasing a lock that is already gone does not raise. */
  lemma {:induction false} ReleaseTwice(s: Sys, path: Path)
    ensures Release(s, path).1.Ok? ==> Release(Release(s, path).0, path).1.Ok?
  {
  }

  /** A stale lock file that another process removes while this one sleeps
      is reclaimed on the next attempt, one check interval later. */
  lemma {:induction false} StaleLockReclaimed(s: Sys, path: Path, content: string, w: World)
    requires path in s.world.files && !NulInPath(path)
    requires |s.script| > 0 && s.script[0] == Some(w)
    requires path !in w.files && w.createFault.None?
    ensures var (t, res) := LockFileCreation(s, true, path, content);
      res.Ok? && t.now == s.now + CheckIntervalMs && t.world == w.(files := w.files[path := content])
  {
    var (s1, a1) := CreateStep(s, true, path, content);
    assert a1 == Exists;
    var s2 := SleepStep(s1, CheckIntervalMs);
    assert s2.world == w;
    var (s3, a2) := CreateStep(s2, true, path, content);
    assert a2 == Created;
    assert Polling(s2, true, path, content, s.now + TimeoutMs) == (s3, Ok(()));
  }

  /** `FileExistsError` is always retried: EEXIST never escapes the loop as
      an `OSError`. */
  lemma {:induction false} ExistsNeverRaised(s: Sys, atomic: bool, path: Path, content: string, deadline: int)
    ensures Polling(s, atomic, path, content, deadline).1 != Fail(OSError(EEXIST))
    decreases deadline - s.now
  {
    if deadline > s.now {
      var (s1, answer) := CreateStep(s, atomic, path, content);
      if answer == Exists {
        ExistsNeverRaised(SleepStep(s1, CheckIntervalMs), atomic, path, content, deadline);
      }
    }
  }

  /** Nobody else acts while this process sleeps. */
  predicate Quiet(script: seq<Option<World>>) {
    forall i :: 0 <= i < |script| ==> script[i].None?
  }

  /** A lock file held by someone else is never overwritten: while its
      holder keeps it, the loop only waits, and gives up at the deadline. */
  lemma {:induction false} HeldLockNeverOverwritten(s: Sys, atomic: bool, path: Path, content: string, deadline: int)
    requires path in s.world.files && Quiet(s.script)
    ensures var (t, res) := Polling(s, atomic, path, content, deadline);
      res.Fail? && t.world == s.world && (atomic && !NulInPath(path) ==> res == TimeoutError(path))
    decreases deadline - s.now
  {
    if deadline > s.now {
      var (s1, answer) := CreateStep(s, atomic, path, content);
      if answer == Exists {
        var s2 := SleepStep(s1, CheckIntervalMs);
        assert s2.world == s.world;
        assert Quiet(s2.script) by {
          if s1.script != [] {
            assert forall i :: 0 <= i < |s2.script| ==> s2.script[i] == s1.script[i + 1];
          }
        }
        HeldLockNeverOverwritten(s2, atomic, path, content, deadline);
      }
    }
  }

  /** One named lock file (filelock.py's `CrossPlatLock`). */
  class CrossPlatLock {
    const lockPath: Path

    constructor (lockfilePath: Path)
      ensures lockPath == lockfilePath
    {
      lockPath := lockfilePath;
    }

    method Enter(env: Env) returns (r: Result<()>)
      modifies env
      ensures (env.Snapshot(), r) == Acquisition(old(env.Snapshot()), env.platform, lockPath)
    {
      r := CreateLockFile(env, LockContent(env.platform.pid, env.platform.argv0));
    }

    method CreateLockFile(env: Env, content: string) returns (r: Result<()>)
      modifies env
      ensures (env.Snapshot(), r) == LockFileCreation(old(env.Snapshot()), env.platform.atomicCreate, lockPath, content)
    {
      var timeoutEnd := env.now + TimeoutMs;
      while timeoutEnd > env.now
        invariant Polling(env.Snapshot(), env.platform.atomicCreate, lockPath, content, timeoutEnd)
               == Polling(old(env.Snapshot()), env.platform.atomicCreate, lockPath, content, timeoutEnd)
        decreases timeoutEnd - env.now
      {
        var answer := env.CreateExclusive(lockPath, content);
        match answer
        case Created =>
          return Ok(());
        case NoAtomic =>
          return Fail(LockError(NoAtomicCreate));
        case CreateErrno(e) =>
          return Fail(OSError(e));
        case Exists =>
          env.Sleep(CheckIntervalMs);
      }
      return Fail(LockError(TimedOut(lockPath, TimeoutSeconds)));
    }

    method Exit(env: Env) returns (r: Result<()>)
      modifies env
      ensures (env.Snapshot(), r) == Release(old(env.Snapshot()), lockPath)
    {
      var failure := env.Remove(lockPath);
      if failure.Some? && !Benign(failure.value) {
        r := Fail(OSError(failure.value));
      } else {
        r := Ok(());
      }
    }
  }
}

=== FILE: ospath.dfy ===
/** The two `os.path` functions the token cache's constructor relies on,
    as POSIX Python defines them. */
module OsPath {

  predicate AllSlashes(p: string) {
    forall j :: 0 <= j < |p| ==> p[j] == '/'
  }

  /** Index of the first '/' at or after `from`, or the length. */
  function FindSlash(p: string, from: nat): (i: nat)
    requires from <= |p|
    ensures from <= i <= |p| && (i < |p| ==> p[i] == '/')
    ensures forall j :: from <= j < i ==> p[j] != '/'
    decreases |p| - from
  {
    if from == |p| || p[from] == '/' then from else FindSlash(p, from + 1)
  }

  /** One past the last '/', or 0 when there is none: `p.rfind('/') + 1`. */
  function LastSlashEnd(p: string): (i: nat)
    ensures i <= |p| && (i > 0 ==> p[i - 1] == '/')
    ensures forall j :: i <= j < |p| ==> p[j] != '/'
  {
    if p == [] then 0 else if p[|p| - 1] == '/' then |p| else LastSlashEnd(p[..|p| - 1])
  }

  /** `p.rstrip('/')`. */
  function RStripSlashes(p: string): (r: string)
    ensures r <= p && (r == [] || r[|r| - 1] != '/')
    ensures forall j :: |r| <= j < |p| ==> p[j] == '/'
  {
    if p == [] || p[|p| - 1] != '/' then p else RStripSlashes(p[..|p| - 1])
  }

  /** `os.path.expanduser`: a leading "~" (alone or before '/') becomes the
      home directory without its trailing slashes, or "/" when nothing would
      be left; "~name" would need the account database, which is not part of
      this model, and is returned unchanged as for an unknown user. */
  function ExpandUser(path: string, home: string): (r: string)
    ensures (path == [] || path[0] != '~') ==> r == path
    ensures |path| >= 2 && path[0] == '~' && path[1] != '/' ==> r == path
    ensures (|path| >= 1 && path[0] == '~' && (|path| == 1 || path[1] == '/')) ==>
              var h := RStripSlashes(home);
              r == (if h + path[1..] == [] then "/" else h + path[1..])
    ensures (|path| >= 1 && path[0] == '~' && (|path| == 1 || path[1] == '/') &&
             home != [] && home[|home| - 1] != '/') ==> r == home + path[1..]
    ensures path != [] ==> r != []
  {
    if path == [] || path[0] != '~' then path
    else
      var i := FindSlash(path, 1);
      if i != 1 then path
      else
        var expanded := RStripSlashes(home) + path[1..];
        if expanded == [] then "/" else expanded
  }

  /** `os.path.dirname`: everything before the last '/', without trailing
      slashes unless it consists of slashes only. */
  function Dirname(p: string): (r: string)
    // the head: the text up to and including the last '/', minus trailing slashes
    ensures r <= p[..LastSlashEnd(p)]
    ensures AllSlashes(p[|r|..LastSlashEnd(p)])
    ensures r != [] && !AllSlashes(r) ==> r[|r| - 1] != '/'
    // a head of slashes only ("/", "//") is kept whole
    ensures AllSlashes(p[..LastSlashEnd(p)]) ==> r == p[..LastSlashEnd(p)]
    // empty exactly when the path has no '/'
    ensures (forall j :: 0 <= j < |p| ==> p[j] != '/') ==> r == []
    ensures (exists j :: 0 <= j < |p| && p[j] == '/') ==> r != []
  {
    var head := p[..LastSlashEnd(p)];
    if head != [] && !AllSlashes(head) then RStripSlashes(head) else head
  }

  /** `dirname` undoes a join: the directory of "dir/name" is "dir". */
  lemma DirnameOfJoin(dir: string, name: string)
    requires dir != [] && dir[|dir| - 1] != '/'
    requires forall j :: 0 <= j < |name| ==> name[j] != '/'
    ensures Dirname(dir + "/" + name) == dir
  {
    var p := dir + "/" + name;
    var i := LastSlashEnd(p);
    assert p[|dir|] == '/';
    assert forall j :: |dir| < j < |p| ==> p[j] == name[j - |dir| - 1];
    assert i == |dir| + 1;
    var head := p[..i];
    assert head == dir + "/";
    assert head[|dir| - 1] != '/';
  }
}

=== FILE: token_cache.dfy ===
/** A token cache backed by a persistence layer and coordinated by a lock
    file (msal_extensions/token_cache.py).  Each instance holds a snapshot of
    the cache in memory, stamped with the time it was last known to agree
    with the persisted store.  Writes take the lock, reload if the store is
    newer, mutate, save and restamp; reads take no lock and retry a failed
    reload at most three times. */
module TokenCache {
  import opened Common
  import opened Environment
  import opened OsPath
  import FileLock

  const LockSuffix := ".lockfile"
  const FindRetries := 3
  const RetryPauseMs := 500

  // ---------------------------------------------------------------------
  // The in-memory cache, known only through its four operations.

  type Fields = map<string, string>

  /** `find(credential_type, **kwargs)`. */
  datatype Query = Query(credentialType: string, criteria: Fields)

  /** `modify(credential_type, old_entry, new_key_value_pairs)`. */
  datatype Edit = Edit(credentialType: string, oldEntry: Fields, newFields: Option<Fields>)

  /** The serializable in-memory cache over snapshots `S` (`mutate` is its
      `modify`); `deserialize` answers `None` where it raises on a malformed
      payload. */
  datatype MemoryOps<!S> = MemoryOps(
    empty: S,
    deserialize: Bytes -> Option<S>,
    serialize: S -> Bytes,
    find: (S, Query) -> seq<Fields>,
    mutate: (S, Edit) -> S)

  /** The world, the snapshot and its stamp after an operation, and how the
      operation ended. */
  datatype Outcome<S, T> = Outcome(sys: Sys, memory: S, lastSync: int, result: Result<T>)

  // ---------------------------------------------------------------------
  // Reading call traces.

  /** Position of the first `e` in `d`, or `|d|` when there is none. */
  function IndexOf(d: seq<Event>, e: Event): (i: nat)
    ensures i <= |d| && (i < |d| ==> d[i] == e)
    ensures forall j :: 0 <= j < i ==> d[j] != e
  {
    if d == [] || d[0] == e then 0 else 1 + IndexOf(d[1..], e)
  }

  /** How many times `e` occurs in `d`. */
  function Count(d: seq<Event>, e: Event): nat
  {
    if d == [] then 0 else Count(d[..|d| - 1], e) + (if d[|d| - 1] == e then 1 else 0)
  }

  lemma {:induction false} CountAppend(a: seq<Event>, b: seq<Event>, e: Event)
    ensures Count(a + b, e) == Count(a, e) + Count(b, e)
    decreases |b|
  {
    if b == [] {
      assert a + b == a;
    } else {
      assert (a + b)[..|a + b| - 1] == a + b[..|b| - 1];
      assert (a + b)[|a + b| - 1] == b[|b| - 1];
      CountAppend(a, b[..|b| - 1], e);
    }
  }

  // ---------------------------------------------------------------------
  // Construction: where the lock file lives.

  /** `lock_location` when given (a non-empty override, with "~" expanded),
      otherwise the persistence location with ".lockfile" appended. */
  function LockLocation(lockOverride: Option<Path>, location: Path, home: Path): (p: Path)
    ensures (lockOverride.None? || lockOverride.value == "") ==>
              p == location + LockSuffix && p != location
    ensures (lockOverride.Some? && lockOverride.value != "") ==> p == ExpandUser(lockOverride.value, home)
    ensures (lockOverride.Some? && lockOverride.value != "" && lockOverride.value[0] != '~') ==>
              p == lockOverride.value
    ensures (lockOverride.Some? && |lockOverride.value| >= 2 && lockOverride.value[..2] == "~/" &&
             home != [] && home[|home| - 1] != '/') ==> p == home + lockOverride.value[1..]
  {
    if lockOverride.Some? && lockOverride.value != "" then ExpandUser(lockOverride.value, home)
    else
      assert |location + LockSuffix| > |location|;
      location + LockSuffix
  }

  // ---------------------------------------------------------------------
  // `_reload_if_necessary`.

  /** The persisted store is strictly newer than the snapshot. */
  predicate Stale(b: Backend, lastSync: int) {
    b.stamp.Ok? && lastSync < b.stamp.value
  }

  /** A failure other than "persistence not found". */
  predicate Raised<T>(x: Result<T>) {
    x.Fail? && x.error != PersistenceNotFound
  }

  /** The backend calls a reload makes: the stamp always, the data only when stale. */
  function ReloadCalls(b: Backend, lastSync: int): seq<Event> {
    [AskedMtime] + if Stale(b, lastSync) then [Loaded] else []
  }

  function Reload<S>(ops: MemoryOps<S>, s: Sys, memory: S, lastSync: int): (r: Outcome<S, ()>)
    // `load` is called exactly when the store is newer; nothing but the trace changes
    ensures r.sys == s.(trace := s.trace + ReloadCalls(s.world.backend, lastSync))
    // a snapshot at least as new as the store is kept as it is
    ensures !Stale(s.world.backend, lastSync) ==> r.memory == memory && r.lastSync == lastSync
    // a missing store is a no-op
    ensures (s.world.backend.stamp == Fail(PersistenceNotFound) ||
             (Stale(s.world.backend, lastSync) && s.world.backend.data == Fail(PersistenceNotFound))) ==>
              r.result.Ok? && r.memory == memory && r.lastSync == lastSync
    // every other failure propagates, and leaves the snapshot alone
    ensures r.result.Fail? <==>
              Raised(s.world.backend.stamp) ||
              (Stale(s.world.backend, lastSync) && Raised(s.world.backend.data)) ||
              (Stale(s.world.backend, lastSync) && s.world.backend.data.Ok? &&
               ops.deserialize(s.world.backend.data.value).None?)
    ensures r.result.Fail? ==> r.result.error != PersistenceNotFound && r.memory == memory && r.lastSync == lastSync
    // and it is raised as it came: the timestamp's error, the load's error, or the unreadable payload
    ensures Raised(s.world.backend.stamp) ==> r.result == Fail(s.world.backend.stamp.error)
    ensures Stale(s.world.backend, lastSync) && Raised(s.world.backend.data) ==>
              r.result == Fail(s.world.backend.data.error)
    ensures (Stale(s.world.backend, lastSync) && s.world.backend.data.Ok? &&
             ops.deserialize(s.world.backend.data.value).None?) ==> r.result == Fail(Undecodable)
    // a newer, readable store replaces the snapshot, stamped now
    ensures (Stale(s.world.backend, lastSync) && s.world.backend.data.Ok? &&
             ops.deserialize(s.world.backend.data.value).Some?) ==>
              r.result.Ok? && r.memory == ops.deserialize(s.world.backend.data.value).value && r.lastSync == s.now
    // the stamp never moves backwards
    ensures lastSync <= s.now ==> lastSync <= r.lastSync <= s.now
  {
    var (s1, stamp) := MtimeStep(s);
    match stamp
    case Fail(e) =>
      Outcome(s1, memory, lastSync, if e == PersistenceNotFound then Ok(()) else Fail(e))
    case Ok(t) =>
      if lastSync < t then
        var (s2, data) := LoadStep(s1);
        match data
        case Fail(e) =>
          Outcome(s2, memory, lastSync, if e == PersistenceNotFound then Ok(()) else Fail(e))
        case Ok(bytes) =>
          match ops.deserialize(bytes)
          case None => Outcome(s2, memory, lastSync, Fail(Undecodable))
          case Some(loaded) => Outcome(s2, loaded, s2.now, Ok(()))
      else
        Outcome(s1, memory, lastSync, Ok(()))
  }

  /** A brand-new cache (stamp 0) loads any existing store on its first
      reload, and adopts it when it can be read. */
  lemma FreshCacheLoads<S>(ops: MemoryOps<S>, s: Sys, t: int)
    requires s.world.backend.stamp == Ok(t) && t > 0
    ensures var r := Reload(ops, s, ops.empty, 0);
      r.sys.trace == s.trace + [AskedMtime, Loaded] &&
      (s.world.backend.data.Ok? && ops.deserialize(s.world.backend.data.value).Some? ==>
         r.memory == ops.deserialize(s.world.backend.data.value).value && r.lastSync == s.now)
  {
  }

  // ---------------------------------------------------------------------
  // `modify`.

  /** The body of `modify`'s `with` block: reload, mutate, save, restamp. */
  function LockedEdit<S>(ops: MemoryOps<S>, s: Sys, memory: S, lastSync: int, edit: Edit): (r: Outcome<S, ()>)
    // the reload comes first, and only the backend is called
    ensures s.trace <= r.sys.trace && |r.sys.trace| > |s.trace| && r.sys.trace[|s.trace|] == AskedMtime
    ensures forall i :: |s.trace| <= i < |r.sys.trace| ==> BackendEvent(r.sys.trace[i])
    ensures r.sys.now == s.now && r.sys.script == s.script
    ensures r.sys.world.files == s.world.files && r.sys.world.removeFault == s.world.removeFault
    // a failed reload stops everything
    ensures Reload(ops, s, memory, lastSync).result.Fail? ==> r == Reload(ops, s, memory, lastSync)
    // otherwise the edit is applied to the reloaded snapshot (even if saving then fails)
    ensures Reload(ops, s, memory, lastSync).result.Ok? ==>
              r.memory == ops.mutate(Reload(ops, s, memory, lastSync).memory, edit)
    // after a good reload comes exactly one save, of the serialized edit; the body
    // returns normally exactly when the save does, and raises the save's error otherwise
    ensures Reload(ops, s, memory, lastSync).result.Ok? ==>
              r.sys.trace == Reload(ops, s, memory, lastSync).sys.trace + [Saved(ops.serialize(r.memory))] &&
              (r.result.Ok? <==> s.world.saveFault.None?) &&
              (s.world.saveFault.Some? ==> r.result == Fail(s.world.saveFault.value))
    // a failed save changes neither the store nor the stamp the reload left
    ensures Reload(ops, s, memory, lastSync).result.Ok? && s.world.saveFault.Some? ==>
              r.lastSync == Reload(ops, s, memory, lastSync).lastSync && r.sys.world == s.world
    // success: the store holds the serialized post-edit snapshot, which is stamped now
    ensures r.result.Ok? ==>
              r.sys.trace[|r.sys.trace| - 1] == Saved(ops.serialize(r.memory)) && r.lastSync == s.now &&
              r.sys.world.backend == Backend(Ok(s.now), Ok(ops.serialize(r.memory)))
  {
    var reloaded := Reload(ops, s, memory, lastSync);
    if reloaded.result.Fail? then reloaded
    else
      var edited := ops.mutate(reloaded.memory, edit);
      var (s1, saved) := SaveStep(reloaded.sys, ops.serialize(edited));
      if saved.Fail? then Outcome(s1, edited, reloaded.lastSync, saved)
      else Outcome(s1, edited, s1.now, Ok(()))
  }

  /** The calls of a `modify` that obtained the lock: polling until the
      lock file is created, the reload first, only backend calls while the
      lock is held, and the removal of the lock file last. */
  predicate LockedSession(d: seq<Event>, path: Path)
  {
    var n := IndexOf(d, CreateAttempt(path, Created));
    n + 2 < |d| && d[n + 1] == AskedMtime
    && (forall i :: 0 <= i < n ==> FileLock.PollEvent(d[i], path))
    && (forall i :: n < i < |d| - 1 ==> BackendEvent(d[i]))
    && d[|d| - 1].RemoveAttempt? && d[|d| - 1].path == path
  }

  /** `modify`: the `with CrossPlatLock(...)` statement around `LockedEdit`.
      An exception raised by the release replaces the body's outcome. */
  function Modification<S>(ops: MemoryOps<S>, s: Sys, platform: Platform, lockPath: Path,
                           memory: S, lastSync: int, edit: Edit): (r: Outcome<S, ()>)
    ensures s.trace <= r.sys.trace && s.now <= r.sys.now
  {
    var (s1, entered) := FileLock.Acquisition(s, platform, lockPath);
    if entered.Fail? then Outcome(s1, memory, lastSync, entered)
    else
      var body := LockedEdit(ops, s1, memory, lastSync, edit);
      var (s2, exited) := FileLock.Release(body.sys, lockPath);
      Outcome(s2, body.memory, body.lastSync, if exited.Fail? then exited else body.result)
  }

  /** Which error `modify` raises: the acquisition's, when the lock is not
      obtained; otherwise the release's, when removing the lock file raises,
      over whatever the body did; otherwise the body's, that is the reload's
      or the save's.  It returns normally exactly when none of them raises. */
  lemma ModificationResult<S>(ops: MemoryOps<S>, s: Sys, platform: Platform, lockPath: Path,
                              memory: S, lastSync: int, edit: Edit)
    ensures var r := Modification(ops, s, platform, lockPath, memory, lastSync, edit);
      var (s1, entered) := FileLock.Acquisition(s, platform, lockPath);
      var reloaded := Reload(ops, s1, memory, lastSync);
      var fault := s1.world.removeFault;
      var releaseRaises := fault.Some? && !FileLock.Benign(fault.value);
      (entered.Fail? ==> r == Outcome(s1, memory, lastSync, entered)) &&
      (entered.Ok? && releaseRaises ==> r.result == Fail(OSError(fault.value))) &&
      (entered.Ok? && !releaseRaises && reloaded.result.Fail? ==> r.result == reloaded.result) &&
      (entered.Ok? && !releaseRaises && reloaded.result.Ok? && s1.world.saveFault.Some? ==>
         r.result == Fail(s1.world.saveFault.value)) &&
      (r.result.Ok? <==> entered.Ok? && !releaseRaises && reloaded.result.Ok? && s1.world.saveFault.None?)
  {
  }

  /** With no lock file in the way, no faults and no store yet, `modify`
      returns normally, creates the store holding the edited snapshot and
      leaves no lock file behind. */
  lemma ModificationCreatesStore<S>(ops: MemoryOps<S>, s: Sys, platform: Platform, lockPath: Path,
                                    memory: S, lastSync: int, edit: Edit)
    requires platform.atomicCreate && !NulInPath(lockPath) && lockPath !in s.world.files
    requires s.world.createFault.None? && s.world.removeFault.None? && s.world.saveFault.None?
    requires s.world.backend.stamp == Fail(PersistenceNotFound)
    ensures var r := Modification(ops, s, platform, lockPath, memory, lastSync, edit);
      r.result == Ok(()) && r.memory == ops.mutate(memory, edit) && r.lastSync == s.now &&
      r.sys.now == s.now && lockPath !in r.sys.world.files &&
      r.sys.world.backend == Backend(Ok(s.now), Ok(ops.serialize(r.memory)))
  {
  }

  /** Without the lock, `modify` raises, never touches the backend and
      releases nothing. */
  lemma ModificationRefused<S>(ops: MemoryOps<S>, s: Sys, platform: Platform, lockPath: Path,
                               memory: S, lastSync: int, edit: Edit)
    ensures var r := Modification(ops, s, platform, lockPath, memory, lastSync, edit);
      var d := r.sys.trace[|s.trace|..];
      IndexOf(d, CreateAttempt(lockPath, Created)) == |d| ==>
        r.result.Fail? && r.memory == memory && r.lastSync == lastSync &&
        forall i :: 0 <= i < |d| ==> !BackendEvent(d[i]) && !d[i].RemoveAttempt?
  {
    var (s1, entered) := FileLock.Acquisition(s, platform, lockPath);
    if entered.Fail? {
      AcquisitionRefused(s, s1, lockPath);
    } else {
      var body := LockedEdit(ops, s1, memory, lastSync, edit);
      var (s2, exited) := FileLock.Release(body.sys, lockPath);
      ModificationSession(s, s1, body.sys, s2, lockPath);
    }
  }

  /** With the lock, every backend call of `modify` happens while it is held,
      the reload first, and the lock file is removed last. */
  lemma ModificationLocked<S>(ops: MemoryOps<S>, s: Sys, platform: Platform, lockPath: Path,
                              memory: S, lastSync: int, edit: Edit)
    ensures var r := Modification(ops, s, platform, lockPath, memory, lastSync, edit);
      var d := r.sys.trace[|s.trace|..];
      IndexOf(d, CreateAttempt(lockPath, Created)) < |d| ==> LockedSession(d, lockPath)
  {
    var (s1, entered) := FileLock.Acquisition(s, platform, lockPath);
    if entered.Fail? {
      AcquisitionRefused(s, s1, lockPath);
    } else {
      var body := LockedEdit(ops, s1, memory, lastSync, edit);
      var (s2, exited) := FileLock.Release(body.sys, lockPath);
      ModificationSession(s, s1, body.sys, s2, lockPath);
    }
  }

  /** A `modify` that returns normally saved the post-edit snapshot just
      before releasing the lock, and stamped the snapshot with that save. */
  lemma ModificationSaves<S>(ops: MemoryOps<S>, s: Sys, platform: Platform, lockPath: Path,
                             memory: S, lastSync: int, edit: Edit)
    ensures var r := Modification(ops, s, platform, lockPath, memory, lastSync, edit);
      var d := r.sys.trace[|s.trace|..];
      r.result.Ok? ==>
        |d| >= 2 && d[|d| - 2] == Saved(ops.serialize(r.memory)) && r.lastSync == r.sys.now &&
        r.sys.world.backend == Backend(Ok(r.sys.now), Ok(ops.serialize(r.memory)))
  {
    var (s1, entered) := FileLock.Acquisition(s, platform, lockPath);
    if entered.Ok? {
      var body := LockedEdit(ops, s1, memory, lastSync, edit);
      var (s2, exited) := FileLock.Release(body.sys, lockPath);
      if exited.Ok? && body.result.Ok? {
        assert s2.trace[|s2.trace| - 2] == body.sys.trace[|body.sys.trace| - 1];
      }
    }
  }

  /** `_last_sync` never moves backwards, and never past the clock. */
  lemma ModificationStampOrder<S>(ops: MemoryOps<S>, s: Sys, platform: Platform, lockPath: Path,
                                  memory: S, lastSync: int, edit: Edit)
    requires lastSync <= s.now
    ensures var r := Modification(ops, s, platform, lockPath, memory, lastSync, edit);
      lastSync <= r.lastSync <= r.sys.now
  {
  }

  lemma AcquisitionRefused(s: Sys, s1: Sys, lockPath: Path)
    requires s.trace <= s1.trace
    requires forall i :: |s.trace| <= i < |s1.trace| ==> FileLock.PollEvent(s1.trace[i], lockPath)
    requires forall i :: |s.trace| <= i < |s1.trace| ==> s1.trace[i] != CreateAttempt(lockPath, Created)
    ensures var d := s1.trace[|s.trace|..];
      IndexOf(d, CreateAttempt(lockPath, Created)) == |d| &&
      forall i :: 0 <= i < |d| ==> !BackendEvent(d[i]) && !d[i].RemoveAttempt?
  {
    var d := s1.trace[|s.trace|..];
    assert forall i :: 0 <= i < |d| ==> d[i] == s1.trace[|s.trace| + i];
  }

  lemma ModificationSession(s: Sys, s1: Sys, s2: Sys, s3: Sys, lockPath: Path)
    requires s.trace <= s1.trace && s1.trace <= s2.trace && s2.trace <= s3.trace
    requires |s1.trace| > |s.trace| && s1.trace[|s1.trace| - 1] == CreateAttempt(lockPath, Created)
    requires forall i :: |s.trace| <= i < |s1.trace| ==> FileLock.PollEvent(s1.trace[i], lockPath)
    requires forall i :: |s.trace| <= i < |s1.trace| - 1 ==> s1.trace[i] != CreateAttempt(lockPath, Created)
    requires |s2.trace| > |s1.trace| && s2.trace[|s1.trace|] == AskedMtime
    requires forall i :: |s1.trace| <= i < |s2.trace| ==> BackendEvent(s2.trace[i])
    requires |s3.trace| == |s2.trace| + 1
    requires s3.trace[|s2.trace|].RemoveAttempt? && s3.trace[|s2.trace|].path == lockPath
    ensures var d := s3.trace[|s.trace|..];
      IndexOf(d, CreateAttempt(lockPath, Created)) == |s1.trace| - |s.trace| - 1 && LockedSession(d, lockPath)
  {
    var d := s3.trace[|s.trace|..];
    var n := |s1.trace| - |s.trace| - 1;
    forall j | 0 <= j <= n
      ensures d[j] == s1.trace[|s.trace| + j]
    {
      assert s3.trace[..|s1.trace|] == s1.trace;
    }
    forall j | n < j < |d| - 1
      ensures d[j] == s2.trace[|s.trace| + j]
    {
      assert s3.trace[..|s2.trace|] == s2.trace;
    }
    assert IndexOf(d, CreateAttempt(lockPath, Created)) == n;
  }

  /** The in-memory cache reads back the snapshot it serialized. */
  ghost predicate ReadsBack<S>(ops: MemoryOps<S>, m: S) {
    ops.deserialize(ops.serialize(m)) == Some(m)
  }

  /** Right after its own successful write, a cache is in step with the
      store: the next reload only asks for the timestamp. */
  lemma ModifiedCacheIsCurrent<S>(ops: MemoryOps<S>, s: Sys, platform: Platform, lockPath: Path,
                                  memory: S, lastSync: int, edit: Edit)
    ensures var r := Modification(ops, s, platform, lockPath, memory, lastSync, edit);
      r.result.Ok? ==>
        Reload(ops, r.sys, r.memory, r.lastSync) ==
          Outcome(r.sys.(trace := r.sys.trace + [AskedMtime]), r.memory, r.lastSync, Ok(()))
  {
    ModificationSaves(ops, s, platform, lockPath, memory, lastSync, edit);
  }

  /** A write is visible to every other cache whose snapshot is older: its
      next reload loads exactly the written snapshot, provided the in-memory
      cache reads back what it serializes. */
  lemma WriteVisibleToReaders<S>(ops: MemoryOps<S>, s: Sys, platform: Platform, lockPath: Path,
                                 memory: S, lastSync: int, edit: Edit, readerMemory: S, readerSync: int)
    requires forall m: S :: ReadsBack(ops, m)
    ensures var r := Modification(ops, s, platform, lockPath, memory, lastSync, edit);
      r.result.Ok? && readerSync < r.sys.now ==>
        var seen := Reload(ops, r.sys, readerMemory, readerSync);
        seen.result.Ok? && seen.memory == r.memory && seen.lastSync == r.sys.now &&
        seen.sys.trace == r.sys.trace + [AskedMtime, Loaded]
  {
    ModificationSaves(ops, s, platform, lockPath, memory, lastSync, edit);
    var r := Modification(ops, s, platform, lockPath, memory, lastSync, edit);
    assert ReadsBack(ops, r.memory);
  }

  // ---------------------------------------------------------------------
  // `find`.

  /** The calls a read may make: no lock file, no save. */
  predicate ReadEvent(e: Event) {
    e == AskedMtime || e == Loaded || e == Slept(RetryPauseMs)
  }

  /** The `for attempt in range(1, retry + 1)` loop of `find`, from `attempt`
      on.  Past the last attempt it returns `[]`, the statement after the
      loop, which the first attempt never reaches (see `LookupAttempts`). */
  function Lookup<S>(ops: MemoryOps<S>, s: Sys, memory: S, lastSync: int, q: Query, attempt: nat)
    : (r: Outcome<S, seq<Fields>>)
    requires 1 <= attempt
    decreases FindRetries + 1 - attempt
    // calls are only appended, and the clock never goes back
    ensures s.trace <= r.sys.trace && s.now <= r.sys.now
  {
    if attempt > FindRetries then Outcome(s, memory, lastSync, Ok([]))
    else
      var reloaded := Reload(ops, s, memory, lastSync);
      if reloaded.result.Ok? then
        Outcome(reloaded.sys, reloaded.memory, reloaded.lastSync, Ok(ops.find(reloaded.memory, q)))
      else if attempt < FindRetries then
        Lookup(ops, SleepStep(reloaded.sys, RetryPauseMs), reloaded.memory, reloaded.lastSync, q, attempt + 1)
      else
        Outcome(reloaded.sys, reloaded.memory, reloaded.lastSync, Fail(reloaded.result.error))
  }

  lemma {:induction false} ReloadCallsCounted(b: Backend, lastSync: int)
    ensures var calls := ReloadCalls(b, lastSync);
      Count(calls, AskedMtime) == 1 && Count(calls, Slept(RetryPauseMs)) == 0 &&
      (forall i :: 0 <= i < |calls| ==> ReadEvent(calls[i])) && !calls[|calls| - 1].Slept?
  {
    var calls := ReloadCalls(b, lastSync);
    if Stale(b, lastSync) {
      assert calls == [AskedMtime, Loaded] && calls[..1] == [AskedMtime] && [AskedMtime][..0] == [];
    } else {
      assert [AskedMtime][..0] == [];
      assert calls == [AskedMtime];
    }
  }

  lemma {:induction false} PauseCounted(calls: seq<Event>, rest: seq<Event>, e: Event)
    ensures Count(calls + [Slept(RetryPauseMs)] + rest, e)
         == Count(calls, e) + (if e == Slept(RetryPauseMs) then 1 else 0) + Count(rest, e)
  {
    CountAppend(calls + [Slept(RetryPauseMs)], rest, e);
    CountAppend(calls, [Slept(RetryPauseMs)], e);
    assert [Slept(RetryPauseMs)][..0] == [];
  }

  /** One failed attempt and the pause after it, as the loop sees them. */
  lemma {:induction false} RetryTrace(t0: seq<Event>, calls: seq<Event>, t2: seq<Event>)
    requires t0 + calls + [Slept(RetryPauseMs)] <= t2
    ensures t2[|t0|..] == calls + [Slept(RetryPauseMs)] + t2[|t0 + calls + [Slept(RetryPauseMs)]|..]
  {
  }

  /** `find` reads: it never touches the lock file and never saves. */
  lemma {:induction false} LookupReadsOnly<S>(ops: MemoryOps<S>, s: Sys, memory: S, lastSync: int, q: Query, attempt: nat)
    requires 1 <= attempt
    ensures var r := Lookup(ops, s, memory, lastSync, q, attempt);
      s.trace <= r.sys.trace && forall i :: |s.trace| <= i < |r.sys.trace| ==> ReadEvent(r.sys.trace[i])
    decreases FindRetries + 1 - attempt
  {
    if attempt <= FindRetries {
      var reloaded := Reload(ops, s, memory, lastSync);
      ReloadCallsCounted(s.world.backend, lastSync);
      if reloaded.result.Fail? && attempt < FindRetries {
        LookupReadsOnly(ops, SleepStep(reloaded.sys, RetryPauseMs), reloaded.memory, reloaded.lastSync, q, attempt + 1);
      }
    }
  }

  /** The clock advances only by `find`'s half-second pauses. */
  lemma {:induction false} LookupClock<S>(ops: MemoryOps<S>, s: Sys, memory: S, lastSync: int, q: Query, attempt: nat)
    requires 1 <= attempt
    ensures var r := Lookup(ops, s, memory, lastSync, q, attempt);
      s.trace <= r.sys.trace &&
      r.sys.now == s.now + RetryPauseMs * Count(r.sys.trace[|s.trace|..], Slept(RetryPauseMs))
    decreases FindRetries + 1 - attempt
  {
    if attempt <= FindRetries {
      var reloaded := Reload(ops, s, memory, lastSync);
      var calls := ReloadCalls(s.world.backend, lastSync);
      ReloadCallsCounted(s.world.backend, lastSync);
      if reloaded.result.Fail? && attempt < FindRetries {
        var s1 := SleepStep(reloaded.sys, RetryPauseMs);
        LookupClock(ops, s1, reloaded.memory, reloaded.lastSync, q, attempt + 1);
        var r := Lookup(ops, s1, reloaded.memory, reloaded.lastSync, q, attempt + 1);
        PausedClock(s.trace, calls, r.sys.trace, s.now, r.sys.now);
      } else {
        assert reloaded.sys.trace[|s.trace|..] == calls;
      }
    }
  }

  /** One failed attempt and its pause add exactly one pause to the count. */
  lemma {:induction false} PausedClock(t0: seq<Event>, calls: seq<Event>, t2: seq<Event>, now0: int, now2: int)
    requires Count(calls, Slept(RetryPauseMs)) == 0
    requires t0 + calls + [Slept(RetryPauseMs)] <= t2
    requires now2 == now0 + RetryPauseMs + RetryPauseMs * Count(t2[|t0 + calls + [Slept(RetryPauseMs)]|..], Slept(RetryPauseMs))
    ensures t0 <= t2 && now2 == now0 + RetryPauseMs * Count(t2[|t0|..], Slept(RetryPauseMs))
  {
    var rest := t2[|t0 + calls + [Slept(RetryPauseMs)]|..];
    RetryTrace(t0, calls, t2);
    PauseCounted(calls, rest, Slept(RetryPauseMs));
  }

  /** One turn of `find`'s loop: a reload that raises before the last
      attempt leads, after a pause, to the next attempt; otherwise the
      reload ends `find`, raising exactly when the reload raised. */
  lemma LookupStep<S>(ops: MemoryOps<S>, s: Sys, memory: S, lastSync: int, q: Query, attempt: nat)
    requires 1 <= attempt <= FindRetries
    ensures var reloaded := Reload(ops, s, memory, lastSync);
      var r := Lookup(ops, s, memory, lastSync, q, attempt);
      (reloaded.result.Fail? && attempt < FindRetries ==>
         r == Lookup(ops, SleepStep(reloaded.sys, RetryPauseMs), reloaded.memory, reloaded.lastSync, q, attempt + 1)) &&
      (reloaded.result.Ok? || attempt == FindRetries ==>
         r.sys == reloaded.sys && (r.result.Fail? <==> reloaded.result.Fail?))
  {
  }

  /** At most three reloads; raising takes all three. */
  lemma {:induction false} LookupAttempts<S>(ops: MemoryOps<S>, s: Sys, memory: S, lastSync: int, q: Query, attempt: nat)
    requires 1 <= attempt <= FindRetries
    ensures var r := Lookup(ops, s, memory, lastSync, q, attempt);
      s.trace <= r.sys.trace &&
      var n := Count(r.sys.trace[|s.trace|..], AskedMtime);
      1 <= n <= FindRetries + 1 - attempt && (r.result.Fail? ==> n == FindRetries + 1 - attempt)
    decreases FindRetries + 1 - attempt
  {
    var reloaded := Reload(ops, s, memory, lastSync);
    var calls := ReloadCalls(s.world.backend, lastSync);
    ReloadCallsCounted(s.world.backend, lastSync);
    LookupStep(ops, s, memory, lastSync, q, attempt);
    if reloaded.result.Fail? && attempt < FindRetries {
      var s1 := SleepStep(reloaded.sys, RetryPauseMs);
      LookupAttempts(ops, s1, reloaded.memory, reloaded.lastSync, q, attempt + 1);
      var r := Lookup(ops, s1, reloaded.memory, reloaded.lastSync, q, attempt + 1);
      RetryCounted(s.trace, calls, r.sys.trace);
    } else {
      assert reloaded.sys.trace[|s.trace|..] == calls;
    }
  }

  /** `find` pauses between reloads only: one pause fewer than reloads. */
  lemma {:induction false} LookupPauses<S>(ops: MemoryOps<S>, s: Sys, memory: S, lastSync: int, q: Query, attempt: nat)
    requires 1 <= attempt <= FindRetries
    ensures var r := Lookup(ops, s, memory, lastSync, q, attempt);
      s.trace <= r.sys.trace &&
      var d := r.sys.trace[|s.trace|..];
      Count(d, Slept(RetryPauseMs)) + 1 == Count(d, AskedMtime)
    decreases FindRetries + 1 - attempt
  {
    var reloaded := Reload(ops, s, memory, lastSync);
    var calls := ReloadCalls(s.world.backend, lastSync);
    ReloadCallsCounted(s.world.backend, lastSync);
    LookupStep(ops, s, memory, lastSync, q, attempt);
    if reloaded.result.Fail? && attempt < FindRetries {
      var s1 := SleepStep(reloaded.sys, RetryPauseMs);
      LookupPauses(ops, s1, reloaded.memory, reloaded.lastSync, q, attempt + 1);
      var r := Lookup(ops, s1, reloaded.memory, reloaded.lastSync, q, attempt + 1);
      RetryCounted(s.trace, calls, r.sys.trace);
    } else {
      assert reloaded.sys.trace[|s.trace|..] == calls;
    }
  }

  /** A reload's calls: the timestamp query, then the load when stale. */
  predicate ReloadShape(c: seq<Event>) {
    c == [AskedMtime] || c == [AskedMtime, Loaded]
  }

  /** The shape of a read's calls: reloads separated by single pauses,
      `(reload pause)* reload`. */
  predicate Rounds(d: seq<Event>)
    decreases |d|
  {
    ReloadShape(d) ||
    (|d| > 2 && ReloadShape(d[..1]) && d[1] == Slept(RetryPauseMs) && Rounds(d[2..])) ||
    (|d| > 3 && ReloadShape(d[..2]) && d[2] == Slept(RetryPauseMs) && Rounds(d[3..]))
  }

  /** Where a read pauses: it starts with the timestamp query, and every
      pause comes right after a reload's last call and right before the
      next reload's timestamp query. */
  predicate PausesBetweenReloads(d: seq<Event>) {
    |d| > 0 && d[0] == AskedMtime &&
    forall i :: 0 <= i < |d| && d[i] == Slept(RetryPauseMs) ==>
      0 < i < |d| - 1 && (d[i - 1] == AskedMtime || d[i - 1] == Loaded) && d[i + 1] == AskedMtime
  }

  /** `find`'s calls are reloads separated by single pauses. */
  lemma {:induction false} LookupRounds<S>(ops: MemoryOps<S>, s: Sys, memory: S, lastSync: int, q: Query, attempt: nat)
    requires 1 <= attempt <= FindRetries
    ensures var r := Lookup(ops, s, memory, lastSync, q, attempt);
      s.trace <= r.sys.trace && Rounds(r.sys.trace[|s.trace|..])
    decreases FindRetries + 1 - attempt
  {
    var reloaded := Reload(ops, s, memory, lastSync);
    var calls := ReloadCalls(s.world.backend, lastSync);
    assert ReloadShape(calls);
    LookupStep(ops, s, memory, lastSync, q, attempt);
    if reloaded.result.Fail? && attempt < FindRetries {
      var s1 := SleepStep(reloaded.sys, RetryPauseMs);
      LookupRounds(ops, s1, reloaded.memory, reloaded.lastSync, q, attempt + 1);
      var r := Lookup(ops, s1, reloaded.memory, reloaded.lastSync, q, attempt + 1);
      RoundAdded(s.trace, calls, r.sys.trace);
    } else {
      assert reloaded.sys.trace[|s.trace|..] == calls;
    }
  }

  /** A reload, a pause, then more rounds, make rounds. */
  lemma {:induction false} RoundAdded(t0: seq<Event>, calls: seq<Event>, t2: seq<Event>)
    requires ReloadShape(calls)
    requires t0 + calls + [Slept(RetryPauseMs)] <= t2
    requires Rounds(t2[|t0 + calls + [Slept(RetryPauseMs)]|..])
    ensures t0 <= t2 && Rounds(t2[|t0|..])
  {
    var rest := t2[|t0 + calls + [Slept(RetryPauseMs)]|..];
    RetryTrace(t0, calls, t2);
    var d := calls + [Slept(RetryPauseMs)] + rest;
    assert t2[|t0|..] == d;
    assert d[..|calls|] == calls && d[|calls|] == Slept(RetryPauseMs) && d[|calls| + 1..] == rest;
  }

  /** In rounds, every pause sits between two reloads, and the first call is
      the timestamp query. */
  lemma {:induction false} RoundsPlacePauses(d: seq<Event>)
    requires Rounds(d)
    ensures PausesBetweenReloads(d)
    decreases |d|
  {
    if !ReloadShape(d) {
      var k := if |d| > 2 && ReloadShape(d[..1]) && d[1] == Slept(RetryPauseMs) && Rounds(d[2..]) then 1 else 2;
      var rest := d[k + 1..];
      RoundsPlacePauses(rest);
      forall i | 0 <= i < |d| && d[i] == Slept(RetryPauseMs)
        ensures 0 < i < |d| - 1 && (d[i - 1] == AskedMtime || d[i - 1] == Loaded) && d[i + 1] == AskedMtime
      {
        if i > k {
          assert d[i] == rest[i - k - 1];
          assert d[i - 1] == rest[i - k - 2] && d[i + 1] == rest[i - k];
        } else {
          assert d[..k] == [AskedMtime] || d[..k] == [AskedMtime, Loaded];
          assert d[..k][k - 1] == d[k - 1];
          assert d[k + 1] == rest[0];
        }
      }
    }
  }

  /** `find` pauses only between two reloads, never before the first. */
  lemma LookupPausesPlaced<S>(ops: MemoryOps<S>, s: Sys, memory: S, lastSync: int, q: Query, attempt: nat)
    requires 1 <= attempt <= FindRetries
    ensures var r := Lookup(ops, s, memory, lastSync, q, attempt);
      s.trace <= r.sys.trace && PausesBetweenReloads(r.sys.trace[|s.trace|..])
  {
    LookupRounds(ops, s, memory, lastSync, q, attempt);
    var r := Lookup(ops, s, memory, lastSync, q, attempt);
    RoundsPlacePauses(r.sys.trace[|s.trace|..]);
  }

  /** One failed attempt and its pause: one more reload, one more pause. */
  lemma {:induction false} RetryCounted(t0: seq<Event>, calls: seq<Event>, t2: seq<Event>)
    requires Count(calls, AskedMtime) == 1 && Count(calls, Slept(RetryPauseMs)) == 0
    requires t0 + calls + [Slept(RetryPauseMs)] <= t2
    ensures var rest := t2[|t0 + calls + [Slept(RetryPauseMs)]|..];
      t0 <= t2 &&
      Count(t2[|t0|..], AskedMtime) == 1 + Count(rest, AskedMtime) &&
      Count(t2[|t0|..], Slept(RetryPauseMs)) == 1 + Count(rest, Slept(RetryPauseMs))
  {
    var rest := t2[|t0 + calls + [Slept(RetryPauseMs)]|..];
    RetryTrace(t0, calls, t2);
    PauseCounted(calls, rest, Slept(RetryPauseMs));
    PauseCounted(calls, rest, AskedMtime);
  }

  /** A normal return is the in-memory lookup on the reloaded snapshot (so
      the `return []` after the loop is never reached); an exception is the
      one the last attempt's reload raised (from a state whose snapshot and
      stamp the failure left as they were), never "not found". */
  lemma {:induction false} LookupResult<S>(ops: MemoryOps<S>, s: Sys, memory: S, lastSync: int, q: Query, attempt: nat)
    requires 1 <= attempt <= FindRetries
    ensures var r := Lookup(ops, s, memory, lastSync, q, attempt);
      (r.result.Ok? ==>
         r.result.value == ops.find(r.memory, q) &&
         |r.sys.trace| > 0 && !r.sys.trace[|r.sys.trace| - 1].Slept?) &&
      (r.result.Fail? ==>
         r.result.error != PersistenceNotFound &&
         (exists last: Sys :: Reload(ops, last, r.memory, r.lastSync) == Outcome(r.sys, r.memory, r.lastSync, Fail(r.result.error))) &&
         Reload(ops, r.sys, r.memory, r.lastSync).result == Fail(r.result.error))
    decreases FindRetries + 1 - attempt
  {
    var reloaded := Reload(ops, s, memory, lastSync);
    ReloadCallsCounted(s.world.backend, lastSync);
    LookupStep(ops, s, memory, lastSync, q, attempt);
    if reloaded.result.Fail? {
      if attempt < FindRetries {
        LookupResult(ops, SleepStep(reloaded.sys, RetryPauseMs), reloaded.memory, reloaded.lastSync, q, attempt + 1);
      } else {
        assert Reload(ops, s, reloaded.memory, reloaded.lastSync) == reloaded;
      }
    }
  }

  /** The first reload that does not raise ends `find`: no further attempt,
      and the answer is the lookup on the snapshot it left. */
  lemma LookupStopsAtFirstSuccess<S>(ops: MemoryOps<S>, s: Sys, memory: S, lastSync: int, q: Query, attempt: nat)
    requires 1 <= attempt <= FindRetries
    ensures var reloaded := Reload(ops, s, memory, lastSync);
      var r := Lookup(ops, s, memory, lastSync, q, attempt);
      reloaded.result.Ok? ==>
        r.sys.trace == s.trace + ReloadCalls(s.world.backend, lastSync) &&
        r.memory == reloaded.memory && r.lastSync == reloaded.lastSync &&
        r.result == Ok(ops.find(reloaded.memory, q))
  {
  }

  /** `find` keeps `_last_sync` in order too. */
  lemma {:induction false} LookupStampOrder<S>(ops: MemoryOps<S>, s: Sys, memory: S, lastSync: int, q: Query, attempt: nat)
    requires 1 <= attempt && lastSync <= s.now
    ensures var r := Lookup(ops, s, memory, lastSync, q, attempt);
      lastSync <= r.lastSync <= r.sys.now
    decreases FindRetries + 1 - attempt
  {
    if attempt <= FindRetries {
      var reloaded := Reload(ops, s, memory, lastSync);
      if reloaded.result.Fail? && attempt < FindRetries {
        LookupStampOrder(ops, SleepStep(reloaded.sys, RetryPauseMs), reloaded.memory, reloaded.lastSync, q, attempt + 1);
      }
    }
  }

  /** A reader that finds a newer, readable store answers from it on the
      first attempt. */
  lemma {:induction false} FindSeesWrite<S>(ops: MemoryOps<S>, s: Sys, platform: Platform, lockPath: Path,
                                            memory: S, lastSync: int, edit: Edit, readerMemory: S, readerSync: int, q: Query)
    requires forall m: S :: ReadsBack(ops, m)
    ensures var r := Modification(ops, s, platform, lockPath, memory, lastSync, edit);
      r.result.Ok? && readerSync < r.sys.now ==>
        var seen := Lookup(ops, r.sys, readerMemory, readerSync, q, 1);
        seen.result == Ok(ops.find(r.memory, q)) && seen.sys.trace == r.sys.trace + [AskedMtime, Loaded]
  {
    WriteVisibleToReaders(ops, s, platform, lockPath, memory, lastSync, edit, readerMemory, readerSync);
  }

  // ---------------------------------------------------------------------
  // The cache object.

  class PersistedTokenCache<S> {
    const env: Env
    const ops: MemoryOps<S>
    const lockLocation: Path
    const isEncrypted: bool
    var memory: S
    var lastSync: int

    /** The snapshot's stamp is a time that has already come. */
    ghost predicate Valid()
      reads this, env
    {
      0 <= lastSync <= env.now
    }

    constructor (env: Env, ops: MemoryOps<S>, lockOverride: Option<Path>)
      modifies env
      ensures this.env == env && this.ops == ops && isEncrypted == env.encrypted
      ensures lockLocation == LockLocation(lockOverride, env.location, env.platform.home)
      ensures memory == ops.empty && lastSync == 0
      ensures env.Snapshot() == MakeDirsStep(old(env.Snapshot()), Dirname(lockLocation))
      ensures Valid()
    {
      this.env := env;
      this.ops := ops;
      lockLocation := LockLocation(lockOverride, env.location, env.platform.home);
      isEncrypted := env.encrypted;
      memory := ops.empty;
      lastSync := 0;
      new;
      env.MakeDirs(Dirname(lockLocation));
    }

    method ReloadIfNecessary() returns (r: Result<()>)
      requires Valid()
      modifies this, env
      ensures Valid()
      ensures Outcome(env.Snapshot(), memory, lastSync, r) == Reload(ops, old(env.Snapshot()), old(memory), old(lastSync))
    {
      var stamp := env.TimeLastModified();
      match stamp {
        case Fail(e) =>
          r := if e == PersistenceNotFound then Ok(()) else Fail(e);
        case Ok(t) =>
          if lastSync < t {
            var data := env.Load();
            match data {
              case Fail(e) =>
                r := if e == PersistenceNotFound then Ok(()) else Fail(e);
              case Ok(bytes) =>
                match ops.deserialize(bytes) {
                  case None =>
                    r := Fail(Undecodable);
                  case Some(loaded) =>
                    memory := loaded;
                    lastSync := env.now;
                    r := Ok(());
                }
            }
          } else {
            r := Ok(());
          }
      }
    }

    method Modify(edit: Edit) returns (r: Result<()>)
      requires Valid()
      modifies this, env
      ensures Valid()
      ensures Outcome(env.Snapshot(), memory, lastSync, r)
           == Modification(ops, old(env.Snapshot()), env.platform, lockLocation, old(memory), old(lastSync), edit)
    {
      var lock := new FileLock.CrossPlatLock(lockLocation);
      var entered := lock.Enter(env);
      if entered.Fail? {
        return entered;
      }
      var body := ReloadIfNecessary();
      if body.Ok? {
        memory := ops.mutate(memory, edit);
        body := env.Save(ops.serialize(memory));
        if body.Ok? {
          lastSync := env.now;
        }
      }
      var exited := lock.Exit(env);
      r := if exited.Fail? then exited else body;
    }

    method Find(q: Query) returns (r: Result<seq<Fields>>)
      requires Valid()
      modifies this, env
      ensures Valid()
      ensures Outcome(env.Snapshot(), memory, lastSync, r) == Lookup(ops, old(env.Snapshot()), old(memory), old(lastSync), q, 1)
    {
      for attempt := 1 to FindRetries + 1
        invariant Valid()
        invariant Lookup(ops, env.Snapshot(), memory, lastSync, q, attempt)
               == Lookup(ops, old(env.Snapshot()), old(memory), old(lastSync), q, 1)
      {
        var reloaded := ReloadIfNecessary();
        if reloaded.Ok? {
          return Ok(ops.find(memory, q));
        }
        if attempt < FindRetries {
          env.Sleep(RetryPauseMs);
        } else {
          return Fail(reloaded.error);
        }
      }
      return Ok([]);
    }
  }
}
